=== FILE: README.md ===
# sloop, modelled in Dafny

sloop is a small fork-per-connection TCP daemon controlled by one command
line: `sloop start` stops any running instance and forks a new one in the
background, `sloop stop` stops it. The control files live in a `run/`
directory two levels above the executable, found from `argv[0]`. The
demonstration handler in `world.c` serves up to ten request/response rounds
per connection from two growable buffers.

This project models the sequential logic of that daemon:

- `util.dfy` (module `Util`): `die` as an explicit `Exit`, the `Result` type
  every fatal step returns, the C-string view of a NUL-terminated array, and
  the bounds-checked `safe_copy`.
- `numerals.dfy` (module `Numerals`): decimal text as `%d` and `%lu` write it,
  and the reading of a leading digit run back into a number.
- `pidfile.dfy` (module `PidFile`): the `"%d\n"` text `write_pid` writes and
  the digit-reading loop of `stop_server` that reads it back.
- `paths.dfy` (module `Paths`): `find_slash_before`, `beg_path` (as written and
  corrected), `get_full_path` and the program name the usage message prints.
- `buffer.dfy` (module `Buffers`): the growable buffer of `buffer.c`. It is a
  record of the meaningful bytes and the capacity. `realloc` is an allocator
  that grants each reallocation separately: it succeeds when the new size of
  that buffer is at most `limit`, with no total shared between buffers.
- `world.dfy` (module `Session`): `read_request`, `send_html`,
  `write_response` and the `do_session` loop. They reuse `Buffers`, because
  the static copies in `world.c` behave exactly like `buffer.c`.
- `sloop.dfy` (module `Control`): `stop_server`, the handler installation,
  the parent side of `start_server`, `run_sloop` and `run_server` as traces of
  actions. Also the bind retry loop of `make_socket` and one pass of
  `do_connection`.

System calls are inputs to the model, not effects:

- the pid record's text, or its absence, for the path the run builds;
- what `getpgid` returns;
- which `sigaction` calls fail;
- what `fork`, `bind`, `read`, `write`, `waitpid`, `accept` and `close` return;
- what each `vsnprintf` call produced.

What the controlling process does to the world is an ordered list of
`Action`s: install a handler, query or signal a process group, remove or
write a file, fork the daemon.

`Control.RunServer` is `run_server` as written, on the path resolver as
written (`Paths.BegPath`). `Control.RunServerFixed` is the same dispatch on the
corrected resolver (`Paths.BegPathFixed`, see Findings). The two agree wherever
the resolver as written already yields a directory (`Control.RunServerFixedAgrees`).

Reserving `n` spare bytes with `buf_need` keeps `buf_read` calls asking for
at most `n` bytes in total from reallocating (`Buffers.ReservedReadsDoNotGrow`).
It does not do the same for `bprintf`, which always asks for 1024 spare bytes
(`Buffers.FormattedAppendGrowsBelowStaging`).

## Model

| member | source | states |
|---|---|---|
| Util.Die | src/util.c:8-13 | exits with status 1; prints the message and a newline exactly when one is given, nothing otherwise |
| Util.DiePerror | src/sloop.c:38-42 | `perror` output (context, colon, error description) followed by `die(0)`: status 1, nothing more printed |
| Util.SafeCopy | src/util.c:20-31 | succeeds exactly when `pos + len + 1 <= size`; then `dest[pos..pos+len)` is `src[0..len)`, `dest[pos+len]` is NUL and every other byte is unchanged; otherwise it dies with "safe_copy out of bounds" |
| Numerals.DigitPrefix | src/sloop.c:139-145 | the characters the loop consumes: a prefix of the text, all digits, stopped by a non-digit or the end |
| Numerals.DigitPrefixUnique | src/sloop.c:139-145 | those three properties pin the digit run down: any all-digit prefix that ends at a non-digit or the end of the text is that run |
| Numerals.NatText | src/sloop.c:128 | `%d` of a non-negative value is a non-empty run of digits with no leading zero |
| Numerals.IntText | src/sloop.c:128 | `%d` of any int denotes it: the digits of a non-negative value read back as the value, and a negative one is a minus sign before digits that read back as its magnitude |
| Numerals.ValueOfNatText | src/sloop.c:128 | reading the digits `%d` printed gives back the number |
| Numerals.DigitPrefixOfNumeral | src/sloop.c:139-145 | reading stops exactly at the end of a numeral followed by a non-digit or the end of the text |
| PidFile.ParsePid | src/sloop.c:138-145 | the `fgetc` loop computes the decimal value of the maximal leading digit run, and 0 for an empty text or one starting with a non-digit |
| PidFile.PidTextRoundTrip | src/sloop.c:128-145 | what `stop_server` parses from the record `write_pid` wrote for a non-negative pid is that pid |
| PidFile.NegativePidParsesToZero | src/sloop.c:128-145 | a negative pid is written with a minus sign, which the parser rejects, so it reads back as 0 ("no process") |
| Paths.FindSlashBefore | src/sloop.c:291-302 | the result is below `pos` (or 0); a positive result indexes a `/` with none between it and `pos`; the result is 0 exactly when no `/` occurs in positions 1 to `pos-1`, so a slash at index 0 and no slash at all give the same answer |
| Paths.BegPath | src/sloop.c:304-313 | `path_pos_2 <= path_pos_1 <= strlen(argv[0])`; the copy succeeds exactly when `path_pos_2 + 2 <= 128`; `full_path` then starts with the first `path_pos_2 + 1` characters of `argv[0]` and its terminator, followed by a NUL; otherwise `safe_copy` dies |
| Paths.BegPathFixed | src/sloop.c:304-313 | the corrected resolver: the base is a prefix of `argv[0]` followed by a NUL, the program name starts at or after the base's end, and any `argv[0]` shorter than 128 characters resolves |
| Paths.BegPathFixedNoSlash | src/sloop.c:304-313 | corrected: with no slash in `argv[0]` the base is empty and the program name is the whole of `argv[0]` |
| Paths.BegPathFixedOneSlash | src/sloop.c:304-313 | corrected: with exactly one slash the program name follows it and the base is empty, or `/` when that slash is the first character |
| Paths.BegPathFixedTwoLevels | src/sloop.c:304-313 | corrected: with two slashes or more the base is `argv[0]` up to and including the second-to-last slash, it fits exactly when it is at most 127 characters, leaving room for the NUL, and the program name follows the last slash |
| Paths.GetFullPath | src/sloop.c:115-119 | succeeds exactly when the base, the name and a NUL fit in 128 characters; the array then holds the base, the name and a NUL |
| Paths.GetFullPathReadsBack | src/sloop.c:115-119 | read as a C string, the path `get_full_path` returns is the base directory immediately followed by the name |
| Paths.BegPathFixedIsDirectory | src/sloop.c:304-313 | the corrected base is empty or ends with `/`, and the program name is the last path component of `argv[0]` |
| Paths.BegPathFixedAgrees | src/sloop.c:304-313 | wherever the as-written resolver already yields a directory prefix, the corrected one yields exactly the same result |
| Paths.EmptyNameGivesEmptyPath | src/sloop.c:304-313 | for an empty `argv[0]`, `beg_path` copies only the terminator, so every control path `get_full_path` builds reads as the empty string |
| Paths.BinSloopSlashes | src/sloop.c:309-310 | in `bin/sloop` the last slash is at index 3 and the search before it finds none and returns 0 |
| Paths.BegPathKeepsStrayCharacter | src/sloop.c:309-312 | for `argv[0] = "bin/sloop"` the as-written resolver keeps the base `b`, which is not a directory, and the pid path becomes `brun/pid` |
| Paths.BegPathFixedDropsStrayCharacter | src/sloop.c:309-312 | for `bin/sloop` the corrected resolver's base is empty and the pid path is `run/pid` |
| Paths.UsageNameIsLastComponent | src/sloop.c:260 | the name the usage message prints (`Paths.UsageName`, `argv[0] + path_pos_1 + 1`) is the last path component whenever `argv[0]` has a slash past its first character |
| Paths.UsageNameDropsFirstCharacter | src/sloop.c:260 | for `argv[0] = "sloop"` the usage message as written names the program `loop` |
| Paths.UsageNameFixedKeepsName | src/sloop.c:260 | with the corrected resolver the usage message names `sloop` |
| Buffers.Grow | src/buffer.c:11-24 | succeeds exactly when `realloc` can provide `size + delta` bytes; the capacity becomes exactly `size + delta` and the stored bytes are kept; otherwise it dies with "Out of memory" |
| Buffers.Need | src/buffer.c:28-34 | afterwards at least `min` bytes are spare and the stored bytes are kept; a buffer with that much spare is returned unchanged; otherwise the capacity grows by `min` itself, not by the shortfall |
| Buffers.Clear | src/buffer.c:37-44 | the buffer is empty with length and capacity 0 |
| Buffers.TruncatedExit | src/buffer.c:60-64 | the "Truncated" diagnostic ends the process like `die(0)`; after the fixed text naming the bound 1024 it carries `nb` as `%d` writes it, so the value reads back from the message, then a newline |
| Buffers.AppendFormatted | src/buffer.c:47-70 | succeeds exactly when 1024 spare bytes can be reserved and the formatted text is shorter than 1024; the text is then appended after the old bytes; a negative or too long result dies with the "Truncated" message, a failed reservation with "Out of memory" |
| Buffers.ReadInto | src/buffer.c:80-97 | succeeds exactly when `count` spare bytes can be reserved; appends the bytes of a positive read and nothing for 0 or -1; at least `count` bytes were free for the read; the length stays within the capacity |
| Buffers.Send | src/buffer.c:100-104 | succeeds exactly when `write` wrote all `len` bytes; emits exactly the stored bytes; leaves length 0 and the capacity unchanged; a short write dies with "ERROR on write" |
| Buffers.AppendAll | src/world.c:128-148 | a run of `bprintf` calls that all succeed leaves the old bytes followed by every formatted text in order, having grown the capacity by at most 1024 per call; pieces that all fit the 1024 bound succeed whenever the grown capacity is at most `limit`; a run succeeds only if every piece was text shorter than 1024, so a negative or too long `vsnprintf` result always ends it; a failing call exits with status 1 |
| Buffers.AppendThenSendEmitsInOrder | src/buffer.c:100-104 | formatted appends into an empty buffer and then `bsend` emit exactly the appended text, in append order |
| Buffers.ReadSeries | src/buffer.c:80-97 | `len <= size` is preserved by any series of reads |
| Buffers.ReservedReadsDoNotGrow | src/buffer.c:28-34 | once `n` bytes are spare, reads asking for at most `n` bytes in total all succeed and never change the capacity |
| Buffers.FormattedAppendGrowsBelowStaging | src/buffer.c:53-54 | with fewer than 1024 spare bytes even a text that fits reallocates, growing the capacity by 1024 |
| Session.ReadRequest | src/world.c:106-110 | succeeds exactly when 8192 bytes can be reserved; the buffer then holds only the new request (at most 8192 bytes) and its capacity never shrinks |
| Session.HeaderAnnouncesLength | src/world.c:161-164 | the header (`Session.Header`) starts with the status line, the type and the length field, whose digits read back as the length, and ends with the blank line |
| Session.SendHtml | src/world.c:159-175 | succeeds exactly when the body is written in full; the output is the header announcing the body's length followed by the body; the buffer is left empty with its capacity |
| Session.ContentLengthMatchesBody | src/world.c:161-164 | after the length field a client finds a run of digits, a blank line, and exactly as many body bytes as the digits announce, which are the buffer's bytes |
| Session.WriteResponse | src/world.c:177-181 | succeeds exactly when every `bprintf` of the page succeeds and the write is complete; the output is then the header and the old bytes followed by the page, and the buffer is left empty with the capacity the page needed; a failure exits with status 1 |
| Session.ResponseIsPage | src/world.c:177-181 | when the round starts with an empty output buffer, the response is the page behind its header |
| Session.Round | src/world.c:196-205 | the peer hung up exactly when the read succeeded and returned nothing; the round is answered exactly when the read succeeded with a non-empty request and the response could be written, and it then sent the page behind its header and left the output buffer empty; every other round is fatal with status 1, a failed reservation with "Out of memory" |
| Session.DoSession | src/world.c:189-212 | at most 10 responses; every response is the page behind its header; every answered round had a non-empty request; a session closed early stopped at an empty read; both buffers end released; a peer that hangs up at once gets nothing; a crash exits with status 1; every answered round's body write was complete; a crash comes before the 10th response, and, when each reallocation up to `limit` covers the request buffer, at a round whose request was non-empty; when each reallocation also covers the output buffer's growth and the page's pieces fit the staging bound, the crashing round's write was short; so with those allocations and complete writes the session never crashes |
| Control.StopServer | src/sloop.c:133-159 | no record: nothing happens; a record: the group is queried only for a nonzero pid and signalled only when `getpgid` also found it, and the record is removed in every case, as the last act; building the path can die |
| Control.SetHandlers | src/sloop.c:55-63 | the SIGALRM and then the SIGCHLD handler are installed in that order; the first refused `sigaction` dies through `perror`, after the installations that preceded it; success means both were installed |
| Control.StartServer | src/sloop.c:228-256 | the parent returns normally exactly when the fork, the pid record's path and the record's opening all succeed, and then it has forked the daemon and written the child's pid as `%d\n`; a failed fork dies before anything happens, an unopenable record dies with "Could not open pid file" after the fork |
| Control.UsageExit | src/sloop.c:258-262 | the usage message ends the process with status 1 |
| Control.RunSloop | src/sloop.c:264-289 | a missing or unknown command is a usage error before anything else; otherwise the handlers are installed first, then the previous instance is stopped, and only `start` goes on to start a new one; each fatal step ends the trace after the steps before it |
| Control.RunServer | src/sloop.c:315-326 | `run_server` as written: a failed `beg_path` dies before anything happens; a usage error touches nothing, exits with status 1 and names the part of `argv[0]` after the last slash the search found; `stop` never forks and never writes a file |
| Control.RunServerFixed | src/sloop.c:315-326 | the same dispatch on the corrected resolver: a usage error touches nothing and exits with status 1, and `stop` never forks and never writes a file |
| Control.RunServerFixedAgrees | src/sloop.c:304-326 | where `beg_path` as written yields a directory, the corrected program behaves exactly like the one as written |
| Control.StopSloopIsPassive | src/sloop.c:282-288 | within `run_sloop`, `stop` never forks and never writes a file |
| Control.StopSloopWithoutRecord | src/sloop.c:133-136 | within `run_sloop`, `stop` with no pid record installs the handlers and returns normally having done nothing else |
| Control.StopWithoutRecordSucceeds | src/sloop.c:133-136 | `stop` with no pid record, from an `argv[0]` short enough for the pid path to fit, installs the handlers and returns normally having done nothing else |
| Control.StartReturnedShape | src/sloop.c:282-288 | a `start` that returns normally has forked the daemon, and its last act wrote the child's pid to the pid record |
| Control.StopSloopOfRecord | src/sloop.c:135-157 | `stop` on the record `write_pid` wrote for pid `p` queries and signals `p`'s group and removes the record |
| Control.StartThenStopSignalsTheDaemon | src/sloop.c:121-157 | after a successful `start`, a `stop` from the same executable reads back the forked daemon's pid, signals its group and removes the very file `start` wrote |
| Control.BindWithRetry | src/sloop.c:82-102 | 1 to 11 `bind` attempts with one sleep between consecutive attempts; stops at the first success; dies through `perror` only after the 11th attempt failed |
| Control.Reaped | src/sloop.c:177-182 | the reap loop collects the leading run of positive `waitpid` results and stops at the first result that is not positive |
| Control.DoConnection | src/sloop.c:171-226 | the children are reaped first; a worker is forked only when `accept` returned a channel; a failed `fork` or `close` of that channel dies |

## Left out

- Process plumbing is not modelled: `dup2`, `setvbuf`, `exit`, and the daemon child's side of `start_server`. That child builds the socket, redirects stderr to the error log and loops on `do_connection` forever. Only the bind retry and one `do_connection` pass are modelled, as separate steps.
- Control.StartServer: covers the parent process only. The daemon child's steps are the ones listed above.
- Signal semantics (`sigaction` flags, `alarm`, interrupted system calls, `kill`) are not modelled. A refused `sigaction` and the `getpgid` answer are inputs; the signal sent is an action.
- Sockets are not modelled: `socket`, `setsockopt`, `inet_addr`, `htons`, `listen`, `accept`. Only `bind`'s answers and `accept`'s channel are inputs.
- Opening the pid record and the error log is an input (whether the file opens), not I/O. `open_error_log` is not modelled, and neither are `fclose` and `remove` failures, which the source ignores.
- The formatting done by `vsnprintf` and the HTML text `compose_page`, `meta` and `show_link` produce are not modelled. Each formatted write is given as the text it produced or a negative error code.
- Session.SendHtml: the header's `dprintf` results are ignored by the source, so the model always counts the header as written.
- Session.DoSession: `alarm` timeouts are not modelled. A read that times out is a script entry whose read returns nothing or fails.
- Buffers.Send: when the short write is fatal, the bytes already on the connection are not recorded.
- PidFile.ParsePid: uses unbounded naturals. The source's `int` accumulation overflows for very long digit runs, which is undefined behaviour in C.
- Buffers.Grow: uses unbounded naturals, so `size + delta` never wraps as a `size_t` would.
- `realloc` and `free` pointer identity is not modelled. The bytes past `len` that `realloc` and `vsnprintf` leave behind are not tracked either.
- Paths.UsageName: requires the name's start to lie within `argv[0]`. With an empty `argv[0]`, the source reads past the terminator.
- Control.RunServer: requires a non-empty `argv[0]` only when the command is missing or unknown. There the usage message would read past the terminator, which is undefined behaviour. With `start` or `stop`, an empty `argv[0]` is modelled: every control path is then the empty string (`Paths.EmptyNameGivesEmptyPath`).
- `PidFile.PidText` (the `"%d\n"` record) is a format definition. What it means is stated by `PidFile.PidTextRoundTrip` and `PidFile.NegativePidParsesToZero`.
- The `world.c` handler is declared `do_session(int fd)` but passed where `void(void)` is expected, so its `fd` is undefined at run time. The session is modelled over an abstract connection: a script of read and write results.
- `src/buffer.h` holds only the record and the prototypes. `Buffers.Buffer` mirrors the record.
- The copies of the buffer operations in `world.c` (src/world.c:16-102, src/world.c:151-155) behave exactly like those in `buffer.c` and are modelled once.

## Findings

| source | as written | input that shows it | evidently intended | confidence | as-written member | corrected member |
|---|---|---|---|---|---|---|
| src/sloop.c:291-312 | `find_slash_before` returns 0 both when no slash exists and when the slash is at index 0, and `beg_path` then copies `path_pos_2 + 1` characters | `argv[0] = "bin/sloop"`: the base becomes `b`, and the pid file is `brun/pid` | copy nothing when there is no second slash, so the pid file is `run/pid` | high, not executed | Paths.BegPathKeepsStrayCharacter | Paths.BegPathFixedDropsStrayCharacter |
| src/sloop.c:260 | the usage message prints `argv[0] + path_pos_1 + 1`, even when `path_pos_1` is 0 because there is no slash | `argv[0] = "sloop"`: the message reads `Usage: loop [start\|stop]` | print the whole name when it contains no slash | high, not executed | Paths.UsageNameDropsFirstCharacter | Paths.UsageNameFixedKeepsName |

=== FILE: buffer.dfy ===
/** The growable output buffer: a record of a logical length, a capacity and
    the bytes stored so far. Only the first `len` bytes are meaningful, so the
    model keeps exactly those (`content`) next to the capacity (`size`); the
    bytes past `len` that `realloc` and `vsnprintf` leave behind are not
    tracked. `realloc` is an allocator that succeeds for any total size up to
    `limit` bytes. */
module Buffers {
  import opened Util
  import Numerals

  datatype Buffer = Buffer(content: seq<char>, size: nat) {

    /** `buf->len`. */
    function Len(): nat
    {
      |content|
    }

    /** The length never exceeds the capacity. */
    predicate Valid()
    {
      |content| <= size
    }

    /** Spare capacity, `buf->size - buf->len`. */
    function Spare(): nat
      requires Valid()
    {
      size - |content|
    }
  }

  /** A zero-initialised buffer, `(buffer){0}`. */
  const Empty := Buffer([], 0)

  /** The staging bound `bprintf` reserves for one formatted write. */
  const StagingSize: nat := 1024

  const OutOfMemory := "Out of memory"
  const WriteFailure := "ERROR on write"

  /** `buf_grow(buf, delta)`: `realloc` the data to `size + delta` bytes,
      dying when that fails; the stored bytes survive the move. */
  function Grow(b: Buffer, delta: nat, limit: nat): (r: Result<Buffer>)
    ensures r.Ok? <==> b.size + delta <= limit
    ensures r.Ok? ==> r.value.size == b.size + delta && r.value.content == b.content
    ensures r.Ok? && b.Valid() ==> r.value.Valid()
    ensures r.Died? ==> r.exit == Die(Some(OutOfMemory))
  {
    if b.size + delta <= limit then Ok(Buffer(b.content, b.size + delta))
    else Died(Die(Some(OutOfMemory)))
  }

  /** `buf_need(buf, min_size)`: when the spare capacity is below `minSize`,
      grow by `minSize` itself (not by the shortfall). */
  function Need(b: Buffer, minSize: nat, limit: nat): (r: Result<Buffer>)
    requires b.Valid()
    ensures r.Ok? ==> r.value.Valid() && r.value.Spare() >= minSize
    ensures r.Ok? ==> r.value.content == b.content && r.value.size >= b.size
    ensures b.Spare() >= minSize ==> r == Ok(b)
    ensures b.Spare() < minSize ==> (r.Ok? <==> b.size + minSize <= limit)
    ensures b.Spare() < minSize && r.Ok? ==> r.value.size == b.size + minSize
    ensures r.Died? ==> r.exit == Die(Some(OutOfMemory))
  {
    if b.Spare() < minSize then Grow(b, minSize, limit) else Ok(b)
  }

  /** `buf_clear(buf)`: free the data and reset both counters. */
  function Clear(b: Buffer): (r: Buffer)
    ensures r.Valid() && r.Len() == 0 && r.size == 0
  {
    Empty
  }

  /** What `vsnprintf` reports: the text it formatted (its length is the
      return value, which may exceed the staging bound) or a negative
      return for an output error. */
  datatype Formatted = Text(text: string) | FormatError(code: int) {

    predicate Valid()
    {
      FormatError? ==> code < 0
    }

    /** The `int` `vsnprintf` returns. */
    function Returned(): int
    {
      if Text? then |text| else code
    }

    /** The characters formatted, none for an output error. */
    function Printed(): string
    {
      if Text? then text else []
    }
  }

  /** The diagnostic `bprintf` prints before `die(0)` when the formatted text
      does not fit the staging bound: the bound (`StagingSize`, printed
      with `%lu`), then `nb` as `%d` writes it, so the message can be read back as the two numbers. */
  function TruncatedExit(nb: int): (e: Exit)
    ensures e.status == Die(None).status
    ensures var head := "Truncated: size = 1024, nb = ";
            && |e.stderr| > |head|
            && e.stderr[..|head|] == head
            && e.stderr[|e.stderr| - 1] == '\n'
            && Numerals.DenotesInt(e.stderr[|head|..|e.stderr| - 1], nb)
  {
    var text := Numerals.IntText(nb);
    var head := "Truncated: size = 1024, nb = ";
    var message := head + text + "\n";
    assert message[..|head|] == head && message[|head|..|message| - 1] == text;
    Exit(1, message)
  }

  /** A formatted write `bprintf` accepts: text, shorter than the staging
      bound. */
  predicate FitsStaging(f: Formatted)
  {
    f.Text? && |f.text| < StagingSize
  }

  /** `bprintf(buf, format, ...)`: reserve the staging bound, format into
      the spare space, and append what was formatted; a negative return or
      one of at least the staging bound is fatal. */
  function AppendFormatted(b: Buffer, f: Formatted, limit: nat): (r: Result<Buffer>)
    requires b.Valid() && f.Valid()
    ensures r.Ok? <==> Need(b, StagingSize, limit).Ok? && f.Text? && |f.text| < StagingSize
    ensures r.Ok? ==> r.value.Valid() && r.value.content == b.content + f.text
    ensures r.Ok? ==> r.value.Len() == b.Len() + f.Returned()
    ensures r.Ok? ==> r.value.size == Need(b, StagingSize, limit).value.size
    ensures r.Died? && Need(b, StagingSize, limit).Ok? ==> r.exit == TruncatedExit(f.Returned())
    ensures r.Died? && Need(b, StagingSize, limit).Died? ==> r.exit == Die(Some(OutOfMemory))
    ensures r.Ok? ==> r.value.size <= b.size + StagingSize
    ensures FitsStaging(f) && b.size + StagingSize <= limit ==> r.Ok?
    ensures r.Died? ==> r.exit.status == 1
  {
    var staged :- Need(b, StagingSize, limit);
    var nb := f.Returned();
    if nb < 0 || nb >= StagingSize as int then Died(TruncatedExit(nb))
    else Ok(Buffer(staged.content + f.text, staged.size))
  }

  /** What one `read(2)` returned: -1, or `n >= 0` bytes (0 at end of file). */
  datatype ReadOutcome = ReadFailed | ReadBytes(bytes: string) {

    /** `read` never returns more than it was asked for. */
    predicate FitsIn(count: nat)
    {
      ReadBytes? ==> |bytes| <= count
    }

    /** The bytes that reach the buffer: only a positive return appends. */
    function Got(): string
    {
      if ReadBytes? then bytes else []
    }
  }

  /** `buf_read(buf, fd, count)`: ensure `count` spare bytes, read at most
      `count` bytes into them and count those the read returned. */
  function ReadInto(b: Buffer, count: nat, rd: ReadOutcome, limit: nat): (r: Result<Buffer>)
    requires b.Valid() && rd.FitsIn(count)
    ensures r.Ok? <==> Need(b, count, limit).Ok?
    ensures r.Ok? ==> r.value.Valid()
    ensures r.Ok? ==> r.value.content == b.content + rd.Got()
    ensures r.Ok? ==> r.value.size == Need(b, count, limit).value.size
    ensures r.Ok? ==> r.value.Spare() + |rd.Got()| >= count
    ensures r.Died? ==> r.exit == Die(Some(OutOfMemory))
  {
    var staged :- Need(b, count, limit);
    Ok(Buffer(staged.content + rd.Got(), staged.size))
  }

  /** `bsend(buf, fd)`: write the `len` stored bytes in one `write(2)` that
      returned `written`; anything short of all of them is fatal. On success
      the bytes put on the wire are exactly the stored ones, and the buffer
      keeps its capacity with a length of 0. */
  function Send(b: Buffer, written: int): (r: Result<(Buffer, string)>)
    requires b.Valid()
    ensures r.Ok? <==> written == b.Len()
    ensures r.Ok? ==> r.value.1 == b.content
    ensures r.Ok? ==> r.value.0.Valid() && r.value.0.Len() == 0 && r.value.0.size == b.size
    ensures r.Died? ==> r.exit == Die(Some(WriteFailure))
  {
    if written != b.Len() then Died(Die(Some(WriteFailure)))
    else Ok((Buffer([], b.size), b.content))
  }

  /** The text a run of formatted writes produces. */
  function Joined(pieces: seq<Formatted>): string
  {
    if pieces == [] then [] else pieces[0].Printed() + Joined(pieces[1..])
  }

  /** Every piece of a run is something `vsnprintf` can report. */
  predicate AllValid(pieces: seq<Formatted>)
  {
    forall i :: 0 <= i < |pieces| ==> pieces[i].Valid()
  }

  /** A run of `bprintf` calls, in order; the first fatal one ends it, with
      status 1. When none is fatal the buffer holds what it held, then every
      piece in order, and each call grew it by at most the staging bound; so
      pieces that all fit the bound succeed whenever the grown capacity is
      within `limit`; and a run succeeds only when every piece fit the bound. */
  function AppendAll(b: Buffer, pieces: seq<Formatted>, limit: nat): (r: Result<Buffer>)
    requires b.Valid()
    requires AllValid(pieces)
    ensures r.Ok? ==> r.value.Valid() && b.size <= r.value.size <= b.size + |pieces| * StagingSize
    ensures r.Ok? ==> r.value.content == b.content + Joined(pieces)
    ensures AllFitStaging(pieces) && b.size + |pieces| * StagingSize <= limit ==> r.Ok?
    ensures r.Ok? ==> AllFitStaging(pieces)
    ensures r.Died? ==> r.exit.status == 1
    decreases |pieces|
  {
    if pieces == [] then Ok(b)
    else
      match AppendFormatted(b, pieces[0], limit)
      case Died(e) => Died(e)
      case Ok(next) =>
        var tail := pieces[1..];
        assert |pieces| * StagingSize == |tail| * StagingSize + StagingSize;
        assert AllFitStaging(pieces) ==> AllFitStaging(tail) by {
          if AllFitStaging(pieces) {
            forall i | 0 <= i < |tail|
              ensures FitsStaging(tail[i])
            {
              assert tail[i] == pieces[i + 1];
            }
          }
        }
        var rest := AppendAll(next, tail, limit);
        assert rest.Ok? ==> AllFitStaging(pieces) by {
          if rest.Ok? {
            forall i | 0 <= i < |pieces|
              ensures FitsStaging(pieces[i])
            {
              if i > 0 {
                assert pieces[i] == tail[i - 1];
              }
            }
          }
        }
        assert rest.Ok? ==> rest.value.content == b.content + Joined(pieces) by {
          assert b.content + pieces[0].text + Joined(tail) == b.content + (pieces[0].text + Joined(tail));
        }
        rest
  }

  /** Every piece of a run fits the staging bound. */
  predicate AllFitStaging(pieces: seq<Formatted>)
  {
    forall i :: 0 <= i < |pieces| ==> FitsStaging(pieces[i])
  }

  /** Formatted writes followed by `bsend` put exactly the appended text on
      the wire, in the order it was appended, and leave the buffer empty
      with the capacity it had grown to. */
  lemma AppendThenSendEmitsInOrder(pieces: seq<Formatted>, limit: nat, written: int)
    requires AllValid(pieces)
    requires AppendAll(Empty, pieces, limit).Ok?
    requires written == |Joined(pieces)|
    ensures Send(AppendAll(Empty, pieces, limit).value, written).Ok?
    ensures Send(AppendAll(Empty, pieces, limit).value, written).value.1 == Joined(pieces)
  {
    assert Empty.content + Joined(pieces) == Joined(pieces);
  }

  /** One `buf_read` call of a series: how much it asks for and what the
      read returned. */
  datatype ReadCall = ReadCall(count: nat, outcome: ReadOutcome)

  predicate ReadsFit(calls: seq<ReadCall>)
  {
    forall i :: 0 <= i < |calls| ==> calls[i].outcome.FitsIn(calls[i].count)
  }

  function TotalCount(calls: seq<ReadCall>): nat
  {
    if calls == [] then 0 else calls[0].count + TotalCount(calls[1..])
  }

  /** A series of `buf_read` calls on one buffer. */
  function ReadSeries(b: Buffer, calls: seq<ReadCall>, limit: nat): (r: Result<Buffer>)
    requires b.Valid() && ReadsFit(calls)
    ensures r.Ok? ==> r.value.Valid()
    decreases |calls|
  {
    if calls == [] then Ok(b)
    else
      var next :- ReadInto(b, calls[0].count, calls[0].outcome, limit);
      ReadSeries(next, calls[1..], limit)
  }

  /** Once `buf_need(buf, n)` has reserved `n` spare bytes, reads asking for
      at most `n` bytes in all never reallocate: each one finds its space
      already there, so none can fail for lack of memory and the capacity
      stays put. */
  lemma {:induction false} ReservedReadsDoNotGrow(b: Buffer, calls: seq<ReadCall>, limit: nat)
    requires b.Valid() && ReadsFit(calls)
    requires TotalCount(calls) <= b.Spare()
    ensures ReadSeries(b, calls, limit).Ok?
    ensures ReadSeries(b, calls, limit).value.size == b.size
    decreases |calls|
  {
    if calls != [] {
      var next := ReadInto(b, calls[0].count, calls[0].outcome, limit);
      assert next.Ok? && next.value.size == b.size;
      assert ReadsFit(calls[1..]) by {
        forall i | 0 <= i < |calls[1..]|
          ensures calls[1..][i].outcome.FitsIn(calls[1..][i].count)
        {
          assert calls[1..][i] == calls[i + 1];
        }
      }
      ReservedReadsDoNotGrow(next.value, calls[1..], limit);
    }
  }

  /** Reserving room does not carry over to formatted writes: `bprintf`
      always asks for the full staging bound, so with less than that spare it
      reallocates even for a text that would fit in the room reserved. */
  lemma FormattedAppendGrowsBelowStaging(b: Buffer, f: Formatted, limit: nat)
    requires b.Valid() && b.Spare() < StagingSize
    requires f.Text? && |f.text| <= b.Spare()
    requires b.size + StagingSize <= limit
    ensures AppendFormatted(b, f, limit).Ok?
    ensures AppendFormatted(b, f, limit).value.size == b.size + StagingSize
  {
  }
}

=== FILE: numerals.dfy ===
/** Decimal text as `printf`'s `%d` and `%lu` write it, and the digit-by-digit
    reading that turns a leading run of decimal digits back into a number. */
module Numerals {

  predicate IsDigit(c: char)
  {
    '0' <= c <= '9'
  }

  predicate AllDigits(s: string)
  {
    forall i :: 0 <= i < |s| ==> IsDigit(s[i])
  }

  function DigitValue(c: char): nat
    requires IsDigit(c)
  {
    (c - '0') as nat
  }

  function DigitChar(d: nat): (c: char)
    requires d < 10
    ensures IsDigit(c) && DigitValue(c) == d
  {
    ('0' as int + d) as char
  }

  /** The number a run of decimal digits denotes, most significant first. */
  function Value(digits: string): nat
    requires AllDigits(digits)
  {
    if digits == [] then 0
    else 10 * Value(digits[..|digits| - 1]) + DigitValue(digits[|digits| - 1])
  }

  /** The maximal leading run of digits of `s`. */
  function DigitPrefix(s: string): (p: string)
    ensures p <= s
    ensures AllDigits(p)
    ensures |p| < |s| ==> !IsDigit(s[|p|])
  {
    if s == [] || !IsDigit(s[0]) then [] else [s[0]] + DigitPrefix(s[1..])
  }

  /** The three properties of `DigitPrefix` pin it down: any digit-only
      prefix that stops at a non-digit or at the end is that prefix. */
  lemma {:induction false} DigitPrefixUnique(s: string, n: nat)
    requires n <= |s|
    requires AllDigits(s[..n])
    requires n < |s| ==> !IsDigit(s[n])
    ensures DigitPrefix(s) == s[..n]
    decreases n
  {
    if n > 0 {
      assert IsDigit(s[..n][0]);
      var tail := s[1..];
      var digits := s[..n];
      var rest := tail[..n - 1];
      assert AllDigits(rest) by {
        forall i | 0 <= i < n - 1
          ensures IsDigit(rest[i])
        {
          assert rest[i] == digits[i + 1];
        }
      }
      DigitPrefixUnique(tail, n - 1);
      assert s[..n] == [s[0]] + s[1..n];
    }
  }

  /** `"%d"` for a non-negative int: the shortest decimal numeral. */
  function NatText(n: nat): (s: string)
    ensures |s| >= 1 && AllDigits(s)
    ensures |s| > 1 ==> s[0] != '0'
  {
    if n < 10 then [DigitChar(n)] else NatText(n / 10) + [DigitChar(n % 10)]
  }

  /** `s` is how `%d` writes `n`: the digits of `n`, behind a minus sign
      when `n` is negative. */
  predicate DenotesInt(s: string, n: int)
  {
    if n >= 0 then AllDigits(s) && Value(s) == n
    else |s| >= 2 && s[0] == '-' && AllDigits(s[1..]) && Value(s[1..]) == -n
  }

  /** `"%d"` for any int: a minus sign before the magnitude of a negative. */
  function IntText(n: int): (s: string)
    ensures |s| >= 1 && DenotesInt(s, n)
  {
    if n < 0 then
      ValueOfNatText(-n);
      var s := "-" + NatText(-n);
      assert s[1..] == NatText(-n);
      s
    else
      ValueOfNatText(n);
      NatText(n)
  }

  lemma {:induction false} ValueOfNatText(n: nat)
    ensures Value(NatText(n)) == n
  {
    if n >= 10 {
      var s := NatText(n);
      assert s[..|s| - 1] == NatText(n / 10);
      ValueOfNatText(n / 10);
    }
  }

  /** Reading digits stops exactly at the end of a numeral that is followed
      by a non-digit. */
  lemma DigitPrefixOfNumeral(digits: string, rest: string)
    requires AllDigits(digits)
    requires rest == [] || !IsDigit(rest[0])
    ensures DigitPrefix(digits + rest) == digits
  {
    var s := digits + rest;
    assert s[..|digits|] == digits;
    DigitPrefixUnique(s, |digits|);
  }

}

=== FILE: paths.dfy ===
/** The control-path resolver: from the invocation path `argv[0]` the daemon
    derives the directory two levels above the executable, keeps it in a
    fixed 128-character array `full_path`, and appends `run/pid` or
    `run/error_log` to it whenever it needs a control file. The same search
    also yields the program name printed in the usage message. */
module Paths {
  import opened Util

  /** `sizeof(full_path)`. */
  const FullPathSize: nat := 128

  /** An array of `n` NUL characters, as static storage starts out. */
  function Zeroed(n: nat): (a: seq<char>)
    ensures |a| == n
  {
    if n == 0 then [] else Zeroed(n - 1) + [NUL]
  }

  /** The static `full_path` array before anything is copied into it. */
  const InitialFullPath: seq<char> := Zeroed(FullPathSize)

  /** `find_slash_before(buf, pos)`: the index of the last `/` strictly before
      `pos`, or 0 when there is none, so "not found" and "found at index 0"
      give the same answer. */
  function FindSlashBefore(buf: string, pos: nat): (r: nat)
    requires pos <= |buf|
    ensures r <= pos
    ensures 0 < pos ==> r < pos
    ensures 0 < r ==> buf[r] == '/'
    ensures forall i :: r < i < pos ==> buf[i] != '/'
    ensures r == 0 <==> forall i :: 0 < i < pos ==> buf[i] != '/'
    decreases pos
  {
    if pos == 0 then 0
    else if buf[pos - 1] == '/' then pos - 1
    else FindSlashBefore(buf, pos - 1)
  }

  /** What `beg_path` leaves behind: where the program name starts in
      `argv[0]` (`path_pos_1 + 1`), how many characters of the base directory
      `full_path` holds (`path_pos_2 + 1`), and the array itself. */
  datatype ControlPath = ControlPath(nameStart: nat, baseLen: nat, fullPath: seq<char>) {

    predicate Valid()
    {
      |fullPath| == FullPathSize && baseLen < FullPathSize
    }

    /** The base directory as the C string functions read it. */
    function Base(): string
      requires Valid()
    {
      fullPath[..baseLen]
    }
  }

  /** `beg_path` as written: locate the last two slashes of `argv[0]` and copy
      `path_pos_2 + 1` characters of it (its terminator included, when that
      reaches past the end) to the start of `full_path`. */
  function BegPath(argv0: string): (r: Result<ControlPath>)
    requires NoNul(argv0)
    ensures var pos1 := FindSlashBefore(argv0, |argv0|);
            var pos2 := FindSlashBefore(argv0, pos1);
            && pos2 <= pos1 <= |argv0|
            && (r.Ok? <==> pos2 + 2 <= FullPathSize)
            && (r.Ok? ==> r.value.nameStart == pos1 + 1 && r.value.baseLen == pos2 + 1)
    ensures r.Ok? ==> && r.value.Valid()
                      && r.value.Base() == Terminated(argv0)[..r.value.baseLen]
                      && r.value.fullPath[r.value.baseLen] == NUL
    ensures r.Died? ==> r.exit == Die(Some(SafeCopyFailure))
  {
    var pos1 := FindSlashBefore(argv0, |argv0|);
    var pos2 := FindSlashBefore(argv0, pos1);
    match SafeCopy(InitialFullPath, 0, Terminated(argv0), pos2 + 1)
    case Ok(copied) => Ok(ControlPath(pos1 + 1, pos2 + 1, copied))
    case Died(e) => Died(e)
  }

  /** `beg_path` with the evident intent restored: a search that finds no
      slash contributes nothing, instead of one character of `argv[0]`. */
  function BegPathFixed(argv0: string): (r: Result<ControlPath>)
    requires NoNul(argv0)
    ensures r.Ok? ==> && r.value.Valid()
                      && r.value.baseLen <= r.value.nameStart <= |argv0|
                      && r.value.Base() == argv0[..r.value.baseLen]
                      && r.value.fullPath[r.value.baseLen] == NUL
    ensures |argv0| < FullPathSize ==> r.Ok?
    ensures r.Died? ==> r.exit == Die(Some(SafeCopyFailure))
  {
    var pos1 := FindSlashBefore(argv0, |argv0|);
    var pos2 := FindSlashBefore(argv0, pos1);
    var nameStart := if pos1 < |argv0| && argv0[pos1] == '/' then pos1 + 1 else 0;
    var baseLen := if pos2 < |argv0| && argv0[pos2] == '/' then pos2 + 1 else 0;
    match SafeCopy(InitialFullPath, 0, argv0, baseLen)
    case Ok(copied) => Ok(ControlPath(nameStart, baseLen, copied))
    case Died(e) => Died(e)
  }

  /** `get_full_path(name)`: copy `name` and its terminator into `full_path`
      right after the base directory; the array that results, read as a C
      string, is the base directory followed by `name`. */
  function GetFullPath(cp: ControlPath, name: string): (r: Result<seq<char>>)
    requires cp.Valid() && NoNul(name)
    ensures r.Ok? <==> cp.baseLen + |name| + 1 <= FullPathSize
    ensures r.Ok? ==> |r.value| == FullPathSize && r.value[..cp.baseLen] == cp.Base()
    ensures r.Ok? ==> r.value[cp.baseLen..cp.baseLen + |name|] == name
    ensures r.Ok? ==> r.value[cp.baseLen + |name|] == NUL
    ensures r.Died? ==> r.exit == Die(Some(SafeCopyFailure))
  {
    SafeCopy(cp.fullPath, cp.baseLen, name, |name|)
  }

  /** Read as a C string, the array `get_full_path` returns is the base
      directory immediately followed by `name`. */
  lemma GetFullPathReadsBack(cp: ControlPath, name: string)
    requires cp.Valid() && NoNul(name) && NoNul(cp.Base())
    requires GetFullPath(cp, name).Ok?
    ensures CStr(GetFullPath(cp, name).value) == cp.Base() + name
  {
    var a := GetFullPath(cp, name).value;
    var n := cp.baseLen + |name|;
    assert a[..n] == cp.Base() + name;
    assert a == a[..n] + [NUL] + a[n + 1..];
    CStrOfTerminated(cp.Base() + name, a[n + 1..]);
  }

  /** The program name the usage message prints, `argv[0] + path_pos_1 + 1`. */
  function UsageName(cp: ControlPath, argv0: string): string
    requires cp.nameStart <= |argv0|
  {
    argv0[cp.nameStart..]
  }

  /** A path is a directory prefix when it is empty or ends with a slash, so
      that appending `run/pid` names a file inside it. */
  predicate IsDirectory(base: string)
  {
    base == [] || base[|base| - 1] == '/'
  }

  /** The corrected resolver always yields a directory prefix of `argv[0]`,
      and a program name that is the last component of `argv[0]`. */
  lemma BegPathFixedIsDirectory(argv0: string)
    requires NoNul(argv0)
    requires BegPathFixed(argv0).Ok?
    ensures var cp := BegPathFixed(argv0).value;
            && IsDirectory(cp.Base())
            && (cp.nameStart == 0 || argv0[cp.nameStart - 1] == '/')
            && (forall i :: cp.nameStart <= i < |argv0| ==> argv0[i] != '/')
  {
    var pos1 := FindSlashBefore(argv0, |argv0|);
    var pos2 := FindSlashBefore(argv0, pos1);
    var cp := BegPathFixed(argv0).value;
    if cp.baseLen != 0 {
      assert cp.baseLen == pos2 + 1 && argv0[pos2] == '/';
      assert cp.Base()[|cp.Base()| - 1] == argv0[pos2];
    }
    if cp.nameStart == 0 {
      assert pos1 == 0 && (|argv0| == 0 || argv0[0] != '/');
    } else {
      assert cp.nameStart == pos1 + 1 && argv0[pos1] == '/';
    }
  }

  /** A bare program name: the corrected resolver keeps no base directory
      and names the whole of `argv[0]`. */
  lemma BegPathFixedNoSlash(argv0: string)
    requires NoNul(argv0)
    requires forall i :: 0 <= i < |argv0| ==> argv0[i] != '/'
    ensures BegPathFixed(argv0).Ok?
    ensures BegPathFixed(argv0).value.Base() == []
    ensures BegPathFixed(argv0).value.nameStart == 0
  {
    assert FindSlashBefore(argv0, |argv0|) == 0;
  }

  /** One slash, at index `l`: the program name follows it and there is no
      directory above, so the base is empty, except that an executable
      directly under the root keeps the root `/` as its base. */
  lemma BegPathFixedOneSlash(argv0: string, l: nat)
    requires NoNul(argv0) && l < |argv0| && argv0[l] == '/'
    requires forall i :: 0 <= i < |argv0| && i != l ==> argv0[i] != '/'
    ensures BegPathFixed(argv0).Ok?
    ensures BegPathFixed(argv0).value.Base() == if l == 0 then "/" else []
    ensures BegPathFixed(argv0).value.nameStart == l + 1
  {
    var pos1 := FindSlashBefore(argv0, |argv0|);
    assert pos1 == l;
    assert FindSlashBefore(argv0, pos1) == 0;
  }

  /** Two slashes or more, the last two at `k` and `l`: the base is
      `argv[0]` up to and including the slash at `k`, two levels above the
      executable, and it fits `full_path` exactly when it leaves room for
      the terminator. */
  lemma BegPathFixedTwoLevels(argv0: string, k: nat, l: nat)
    requires NoNul(argv0) && k < l < |argv0| && argv0[k] == '/' && argv0[l] == '/'
    requires forall i :: k < i < |argv0| && i != l ==> argv0[i] != '/'
    ensures BegPathFixed(argv0).Ok? <==> k + 2 <= FullPathSize
    ensures BegPathFixed(argv0).Ok? ==> BegPathFixed(argv0).value.Base() == argv0[..k + 1]
    ensures BegPathFixed(argv0).Ok? ==> BegPathFixed(argv0).value.nameStart == l + 1
  {
    var pos1 := FindSlashBefore(argv0, |argv0|);
    assert pos1 == l;
    var pos2 := FindSlashBefore(argv0, pos1);
    assert pos2 == k by {
      if k > 0 {
        assert pos2 > 0;
      }
    }
  }

  /** Wherever `beg_path` as written already produced a directory prefix,
      the corrected resolver produces exactly the same result: the same
      program name, the same base and the same `full_path` array. */
  lemma BegPathFixedAgrees(argv0: string)
    requires NoNul(argv0) && argv0 != []
    requires BegPath(argv0).Ok? && IsDirectory(BegPath(argv0).value.Base())
    ensures BegPathFixed(argv0) == BegPath(argv0)
    ensures BegPathFixed(argv0).value.Base() == BegPath(argv0).value.Base()
  {
    var cp := BegPath(argv0).value;
    var pos1 := FindSlashBefore(argv0, |argv0|);
    var pos2 := FindSlashBefore(argv0, pos1);
    assert Terminated(argv0)[pos2] == '/';
    assert pos2 < |argv0| && argv0[pos2] == '/';
    assert argv0[pos1] == '/';
    assert Terminated(argv0)[..pos2 + 1] == argv0[..pos2 + 1];
  }

  /** The two searches `beg_path` makes in `bin/sloop`: the last slash is
      at index 3, and before it there is none, so the second search gives 0. */
  lemma BinSloopSlashes(argv0: string)
    requires argv0 == "bin/sloop"
    ensures FindSlashBefore(argv0, |argv0|) == 3
    ensures FindSlashBefore(argv0, 3) == 0
  {
    assert FindSlashBefore(argv0, 4) == 3;
  }

  /** `bin/sloop`, an executable one directory below the working directory:
      `find_slash_before` finds no second slash and returns 0, `beg_path`
      copies the `b`, and the pid file becomes `brun/pid` instead of
      `run/pid`. */
  lemma BegPathKeepsStrayCharacter(argv0: string)
    requires argv0 == "bin/sloop"
    ensures BegPath(argv0).Ok?
    ensures BegPath(argv0).value.Base() == "b"
    ensures !IsDirectory(BegPath(argv0).value.Base())
    ensures GetFullPath(BegPath(argv0).value, "run/pid").Ok?
    ensures CStr(GetFullPath(BegPath(argv0).value, "run/pid").value) == "brun/pid"
  {
    BinSloopSlashes(argv0);
    var cp := BegPath(argv0).value;
    assert cp.baseLen == 1;
    assert cp.Base() == "b" by {
      assert Terminated(argv0)[..1] == [argv0[0]];
    }
    GetFullPathReadsBack(cp, "run/pid");
    assert "b" + "run/pid" == "brun/pid";
  }

  /** The corrected resolver puts the pid file of `bin/sloop` at `run/pid`. */
  lemma BegPathFixedDropsStrayCharacter(argv0: string)
    requires argv0 == "bin/sloop"
    ensures BegPathFixed(argv0).Ok?
    ensures BegPathFixed(argv0).value.Base() == []
    ensures GetFullPath(BegPathFixed(argv0).value, "run/pid").Ok?
    ensures CStr(GetFullPath(BegPathFixed(argv0).value, "run/pid").value) == "run/pid"
  {
    BinSloopSlashes(argv0);
    var cp := BegPathFixed(argv0).value;
    assert cp.baseLen == 0;
    GetFullPathReadsBack(cp, "run/pid");
    assert [] + "run/pid" == "run/pid";
  }

  /** An empty `argv[0]`: `beg_path` copies only its terminator, so every
      control path `get_full_path` builds reads as the empty string. */
  lemma EmptyNameGivesEmptyPath(name: string)
    requires NoNul(name) && |name| + 2 <= FullPathSize
    ensures BegPath([]).Ok? && BegPath([]).value.baseLen == 1
    ensures GetFullPath(BegPath([]).value, name).Ok?
    ensures CStr(GetFullPath(BegPath([]).value, name).value) == []
  {
    var cp := BegPath([]).value;
    assert cp.fullPath[0] == NUL;
    var a := GetFullPath(cp, name).value;
    assert a[0] == cp.Base()[0];
  }

  /** `sloop` invoked without any slash: `path_pos_1` is 0 and the usage
      message skips the first character, printing `loop`. */
  lemma UsageNameDropsFirstCharacter()
    ensures BegPath("sloop").Ok?
    ensures BegPath("sloop").value.nameStart <= |"sloop"|
    ensures UsageName(BegPath("sloop").value, "sloop") == "loop"
  {
    assert FindSlashBefore("sloop", 5) == 0;
  }

  /** Whenever `argv[0]` has a slash past its first character, the usage
      message as written names the last path component. */
  lemma UsageNameIsLastComponent(argv0: string, l: nat)
    requires NoNul(argv0) && 0 < l < |argv0| && argv0[l] == '/'
    requires forall i :: l < i < |argv0| ==> argv0[i] != '/'
    requires BegPath(argv0).Ok?
    ensures BegPath(argv0).value.nameStart <= |argv0|
    ensures UsageName(BegPath(argv0).value, argv0) == argv0[l + 1..]
  {
    assert FindSlashBefore(argv0, |argv0|) == l;
  }

  /** The corrected resolver names `sloop` in full. */
  lemma UsageNameFixedKeepsName()
    ensures BegPathFixed("sloop").Ok?
    ensures UsageName(BegPathFixed("sloop").value, "sloop") == "sloop"
  {
    assert FindSlashBefore("sloop", 5) == 0;
  }
}

=== FILE: pidfile.dfy ===
/** The text of the pid record: `write_pid` writes the daemon's process id
    with `"%d\n"`, and `stop_server` reads it back one character at a time,
    accumulating the leading run of decimal digits. */
module PidFile {
  import opened Numerals

  /** The text `write_pid` puts in the pid record, `"%d\n"`. */
  function PidText(pid: int): string
  {
    IntText(pid) + "\n"
  }

  /** What `stop_server` computes from the pid record: the value of its
      leading digit run (0 when it starts with a non-digit or is empty). */
  function ParsedPid(text: string): nat
  {
    Value(DigitPrefix(text))
  }

  /** The `fgetc` loop of `stop_server`: read characters while they are
      digits, folding each into `pid = 10*pid + (ch - '0')`; the end of the
      text (EOF) is not a digit. */
  method ParsePid(text: string) returns (pid: nat)
    ensures pid == Value(DigitPrefix(text))
    ensures text == [] || !IsDigit(text[0]) ==> pid == 0
  {
    pid := 0;
    var i := 0;
    while i < |text| && IsDigit(text[i])
      invariant i <= |text|
      invariant AllDigits(text[..i])
      invariant pid == Value(text[..i])
    {
      assert text[..i + 1][..i] == text[..i];
      pid := 10 * pid + DigitValue(text[i]);
      i := i + 1;
    }
    DigitPrefixUnique(text, i);
  }

  /** The pid record round-trips: what `stop_server` parses from the text
      `write_pid` wrote for a non-negative pid is that pid. */
  lemma PidTextRoundTrip(pid: int)
    requires pid >= 0
    ensures ParsedPid(PidText(pid)) == pid
  {
    DigitPrefixOfNumeral(NatText(pid), "\n");
    ValueOfNatText(pid);
  }

  /** A negative pid is written with a leading minus sign, which the parser
      does not read as a digit: it comes back as 0, "no process". */
  lemma NegativePidParsesToZero(pid: int)
    requires pid < 0
    ensures ParsedPid(PidText(pid)) == 0
  {
    assert PidText(pid)[0] == '-';
  }
}

=== FILE: sloop.dfy ===
/** The daemon controller: `run_server` resolves the control directory,
    reads the command (`start` or `stop`), installs the two interrupting
    signal handlers, stops whatever instance the pid record names, and for
    `start` forks the background daemon and records its pid. The system calls
    involved are answers supplied by a `Host`; what the invoking process does
    to the world is an ordered trace of `Action`s. The background daemon's
    own steps that are modelled are the bounded bind retry of `make_socket`
    and one pass of the accept loop. */
module Control {
  import opened Util
  import PidFile
  import opened Paths

  datatype Signal = SIGALRM | SIGCHLD | SIGINT

  /** An effect of the invoking process, in the order it happens. */
  datatype Action =
    | InstallHandler(sig: Signal)
    | QueryGroup(pid: nat)
    | SignalGroup(target: int, sig: Signal)
    | RemoveFile(path: string)
    | ForkDaemon
    | WriteFile(path: string, text: string)

  /** A process id `fork` hands to the parent. */
  type Pid = n: nat | n > 0 witness 1

  datatype ForkOutcome = ForkFailed | Forked(child: Pid)

  /** The answers the system gives the controller: the pid record's text
      (`None` when it cannot be opened for reading), what `getpgid` returns
      for the pid read from it, the signals whose `sigaction` fails and the
      message `perror` would print for that, what `fork` returns to the
      parent, and whether the pid record can be opened for writing. */
  datatype Host = Host(
    pidRecord: Option<string>,
    groupOf: int,
    refusedSignals: set<Signal>,
    sigactionError: string,
    fork: ForkOutcome,
    pidRecordWritable: bool)

  /** How the invoking process ended and what it did before. */
  datatype Run = Run(trace: seq<Action>, exit: Exit)

  const PidName := "run/pid"
  const ErrorLogName := "run/error_log"

  /** The process returned from `main` normally. */
  const Returned := Exit(0, [])

  /** `stop_server`: when the pid record opens, read the pid from it, signal
      its process group when the pid is nonzero and `getpgid` finds it, and
      remove the record in every case; an absent record means nothing to
      stop. Building the record's path can die. */
  function StopServer(cp: ControlPath, pidRecord: Option<string>, groupOf: int): (r: Result<seq<Action>>)
    requires cp.Valid()
    ensures r.Ok? <==> GetFullPath(cp, PidName).Ok?
    ensures r.Died? ==> r.exit == Die(Some(SafeCopyFailure))
    ensures r.Ok? && pidRecord.None? ==> r.value == []
    ensures r.Ok? && pidRecord.Some? ==>
              var pid := PidFile.ParsedPid(pidRecord.value);
              var remove := RemoveFile(CStr(GetFullPath(cp, PidName).value));
              && (pid == 0 ==> r.value == [remove])
              && (pid != 0 && groupOf == -1 ==> r.value == [QueryGroup(pid), remove])
              && (pid != 0 && groupOf != -1 ==> r.value == [QueryGroup(pid), SignalGroup(-groupOf, SIGINT), remove])
  {
    var path :- GetFullPath(cp, PidName);
    match pidRecord
    case None => Ok([])
    case Some(text) =>
      var pid := PidFile.ParsedPid(text);
      var signal := if pid != 0 && groupOf != -1 then [SignalGroup(-groupOf, SIGINT)] else [];
      var query := if pid != 0 then [QueryGroup(pid)] + signal else [];
      Ok(query + [RemoveFile(CStr(path))])
  }

  /** The two handlers `run_sloop` installs, in order. */
  const Handlers := [InstallHandler(SIGALRM), InstallHandler(SIGCHLD)]

  /** `set_handler(signum)` for SIGALRM and then SIGCHLD; a refused
      `sigaction` is fatal, after whatever was installed before it. */
  function SetHandlers(host: Host): (r: Run)
    ensures r.trace <= Handlers
    ensures r.exit == Returned <==> r.trace == Handlers
    ensures forall a :: a in r.trace ==> a.InstallHandler? && a.sig !in host.refusedSignals
    ensures r.exit != Returned ==>
              && Handlers[|r.trace|].sig in host.refusedSignals
              && r.exit == DiePerror("sigaction(2) error", host.sigactionError)
  {
    var fatal := DiePerror("sigaction(2) error", host.sigactionError);
    if SIGALRM in host.refusedSignals then Run([], fatal)
    else if SIGCHLD in host.refusedSignals then Run([InstallHandler(SIGALRM)], fatal)
    else Run(Handlers, Returned)
  }

  /** `start_server` in the invoking process: fork the daemon, then
      `write_pid` records the child's pid with `"%d\n"`; the parent returns
      normally exactly when the fork, the record's path and the record's
      opening all succeed. */
  function StartServer(cp: ControlPath, host: Host): (r: Run)
    requires cp.Valid()
    ensures host.fork.ForkFailed? ==> r == Run([], Die(Some("fork failed")))
    ensures r.exit == Returned <==>
              host.fork.Forked? && GetFullPath(cp, PidName).Ok? && host.pidRecordWritable
    ensures r.exit == Returned ==>
              r.trace == [ForkDaemon, WriteFile(CStr(GetFullPath(cp, PidName).value), PidFile.PidText(host.fork.child))]
    ensures host.fork.Forked? && GetFullPath(cp, PidName).Died? ==>
              r == Run([ForkDaemon], Die(Some(SafeCopyFailure)))
    ensures host.fork.Forked? && GetFullPath(cp, PidName).Ok? && !host.pidRecordWritable ==>
              r == Run([ForkDaemon], Die(Some("Could not open pid file")))
  {
    match host.fork
    case ForkFailed => Run([], Die(Some("fork failed")))
    case Forked(child) =>
      match GetFullPath(cp, PidName)
      case Died(e) => Run([ForkDaemon], e)
      case Ok(path) =>
        if !host.pidRecordWritable then Run([ForkDaemon], Die(Some("Could not open pid file")))
        else Run([ForkDaemon, WriteFile(CStr(path), PidFile.PidText(child))], Returned)
  }

  /** The usage message and its status-1 exit. */
  function UsageExit(name: string): (e: Exit)
    ensures e.status == 1
  {
    Exit(1, "Usage: " + name + " [start|stop]\n")
  }

  predicate IsCommand(argv: seq<string>)
  {
    |argv| >= 2 && (argv[1] == "start" || argv[1] == "stop")
  }

  /** `run_sloop`: check the command, install the handlers, stop any running
      instance, and start a new one for `start`. */
  function RunSloop(argv: seq<string>, cp: ControlPath, host: Host): (r: Run)
    requires |argv| >= 1 && cp.Valid() && (!IsCommand(argv) ==> cp.nameStart <= |argv[0]|)
    ensures !IsCommand(argv) ==> r == Run([], UsageExit(UsageName(cp, argv[0])))
    ensures IsCommand(argv) ==> SetHandlers(host).trace <= r.trace
    ensures IsCommand(argv) && SetHandlers(host).exit != Returned ==> r == SetHandlers(host)
    ensures IsCommand(argv) && argv[1] == "stop" && SetHandlers(host).exit == Returned ==>
              var stopped := StopServer(cp, host.pidRecord, host.groupOf);
              && (stopped.Ok? ==> r == Run(Handlers + stopped.value, Returned))
              && (stopped.Died? ==> r == Run(Handlers, stopped.exit))
    ensures IsCommand(argv) && argv[1] == "start" && SetHandlers(host).exit == Returned ==>
              var stopped := StopServer(cp, host.pidRecord, host.groupOf);
              && (stopped.Ok? ==>
                   r == Run(Handlers + stopped.value + StartServer(cp, host).trace, StartServer(cp, host).exit))
              && (stopped.Died? ==> r == Run(Handlers, stopped.exit))
  {
    if |argv| < 2 then Run([], UsageExit(UsageName(cp, argv[0])))
    else
      var start := argv[1] == "start";
      if !start && argv[1] != "stop" then Run([], UsageExit(UsageName(cp, argv[0])))
      else
        var handlers := SetHandlers(host);
        if handlers.exit != Returned then handlers
        else
          match StopServer(cp, host.pidRecord, host.groupOf)
          case Died(e) => Run(handlers.trace, e)
          case Ok(stopped) =>
            if !start then Run(handlers.trace + stopped, Returned)
            else
              var started := StartServer(cp, host);
              Run(handlers.trace + stopped + started.trace, started.exit)
  }

  predicate ArgsAreStrings(argv: seq<string>)
  {
    forall i :: 0 <= i < |argv| ==> NoNul(argv[i])
  }

  /** Within `run_sloop`, `stop` only installs handlers, queries and
      signals a group, and removes the record. */
  lemma StopSloopIsPassive(argv: seq<string>, cp: ControlPath, host: Host)
    requires |argv| >= 1 && cp.Valid() && (!IsCommand(argv) ==> cp.nameStart <= |argv[0]|)
    ensures |argv| >= 2 && argv[1] == "stop" ==>
              forall a :: a in RunSloop(argv, cp, host).trace ==> !a.ForkDaemon? && !a.WriteFile?
  {
    if |argv| >= 2 && argv[1] == "stop" {
      assert IsCommand(argv) && argv[1] != "start";
      var stopped := StopServer(cp, host.pidRecord, host.groupOf);
      if SetHandlers(host).exit == Returned && stopped.Ok? {
        var trace := Handlers + stopped.value;
        assert RunSloop(argv, cp, host).trace == trace;
        forall a | a in trace
          ensures !a.ForkDaemon? && !a.WriteFile?
        {
          if a !in Handlers {
            assert a in stopped.value;
          }
        }
      }
    }
  }

  /** `run_server`: resolve the control directory from `argv[0]` with
      `beg_path` as written, then dispatch. A usage error prints the name
      that follows the last slash the search found and touches nothing;
      `stop` never forks and never writes a file. */
  function RunServer(argv: seq<string>, host: Host): (r: Run)
    requires |argv| >= 1 && ArgsAreStrings(argv) && (argv[0] != [] || IsCommand(argv))
    ensures BegPath(argv[0]).Died? ==> r == Run([], Die(Some(SafeCopyFailure)))
    ensures BegPath(argv[0]).Ok? ==> r == RunSloop(argv, BegPath(argv[0]).value, host)
    ensures !IsCommand(argv) ==> r.trace == [] && r.exit.status == 1
    ensures !IsCommand(argv) && BegPath(argv[0]).Ok? ==>
              r.exit == UsageExit(argv[0][FindSlashBefore(argv[0], |argv[0]|) + 1..])
    ensures |argv| >= 2 && argv[1] == "stop" ==> forall a :: a in r.trace ==> !a.ForkDaemon? && !a.WriteFile?
  {
    match BegPath(argv[0])
    case Died(e) => Run([], e)
    case Ok(cp) =>
      assert !IsCommand(argv) ==> UsageName(cp, argv[0]) == argv[0][FindSlashBefore(argv[0], |argv[0]|) + 1..];
      StopSloopIsPassive(argv, cp, host);
      RunSloop(argv, cp, host)
  }

  /** `run_server` with the corrected resolver: the same dispatch on the
      directory two levels above the executable. */
  function RunServerFixed(argv: seq<string>, host: Host): (r: Run)
    requires |argv| >= 1 && ArgsAreStrings(argv)
    ensures BegPathFixed(argv[0]).Died? ==> r == Run([], Die(Some(SafeCopyFailure)))
    ensures BegPathFixed(argv[0]).Ok? ==> r == RunSloop(argv, BegPathFixed(argv[0]).value, host)
    ensures !IsCommand(argv) ==> r.trace == [] && r.exit.status == 1
    ensures |argv| >= 2 && argv[1] == "stop" ==> forall a :: a in r.trace ==> !a.ForkDaemon? && !a.WriteFile?
  {
    match BegPathFixed(argv[0])
    case Died(e) => Run([], e)
    case Ok(cp) =>
      StopSloopIsPassive(argv, cp, host);
      RunSloop(argv, cp, host)
  }

  /** Where `beg_path` as written already yields a directory, the corrected
      program behaves exactly like the one as written. */
  lemma RunServerFixedAgrees(argv: seq<string>, host: Host)
    requires |argv| >= 1 && ArgsAreStrings(argv) && argv[0] != []
    requires BegPath(argv[0]).Ok? && IsDirectory(BegPath(argv[0]).value.Base())
    ensures RunServerFixed(argv, host) == RunServer(argv, host)
  {
    BegPathFixedAgrees(argv[0]);
  }

  /** Within `run_sloop`, `stop` with no pid record installs the handlers
      and returns normally having done nothing else. */
  lemma StopSloopWithoutRecord(argv: seq<string>, cp: ControlPath, host: Host)
    requires |argv| >= 2 && argv[1] == "stop" && cp.Valid()
    requires GetFullPath(cp, PidName).Ok?
    requires host.pidRecord.None? && host.refusedSignals == {}
    ensures RunSloop(argv, cp, host) == Run(Handlers, Returned)
  {
    assert IsCommand(argv) && argv[1] != "start";
    assert SetHandlers(host) == Run(Handlers, Returned);
    assert StopServer(cp, host.pidRecord, host.groupOf) == Ok([]);
  }

  /** `stop` with no pid record succeeds having done nothing but install the
      handlers, whenever `argv[0]` is short enough for the control path to
      fit `full_path`. */
  lemma StopWithoutRecordSucceeds(argv: seq<string>, host: Host)
    requires |argv| >= 2 && ArgsAreStrings(argv) && argv[1] == "stop"
    requires host.pidRecord.None? && host.refusedSignals == {}
    requires |argv[0]| + |PidName| + 1 <= FullPathSize
    ensures RunServer(argv, host) == Run(Handlers, Returned)
  {
    assert BegPath(argv[0]).Ok?;
    var cp := BegPath(argv[0]).value;
    assert GetFullPath(cp, PidName).Ok?;
    StopSloopWithoutRecord(argv, cp, host);
  }

  /** Within `run_sloop`, a `start` that returns normally got past every
      fatal step (the handlers, the stop of the previous instance, the fork)
      and wrote the child's pid to the pid record as its last act. */
  lemma StartReturnedShape(argv: seq<string>, cp: ControlPath, host: Host)
    requires |argv| >= 2 && argv[1] == "start" && cp.Valid()
    requires RunSloop(argv, cp, host).exit == Returned
    ensures host.fork.Forked? && GetFullPath(cp, PidName).Ok?
    ensures var trace := RunSloop(argv, cp, host).trace;
            |trace| >= 1
            && trace[|trace| - 1] == WriteFile(CStr(GetFullPath(cp, PidName).value), PidFile.PidText(host.fork.child))
  {
    assert IsCommand(argv);
    var stopped := StopServer(cp, host.pidRecord, host.groupOf);
    assert SetHandlers(host).exit == Returned && stopped.Ok?;
    var started := StartServer(cp, host);
    assert started.exit == Returned;
    assert RunSloop(argv, cp, host).trace == Handlers + stopped.value + started.trace;
  }

  /** Within `run_sloop`, a `stop` that finds the text `write_pid` wrote
      for `p`, and whose `getpgid` finds `p`'s group, installs the handlers,
      queries and signals that group and removes the record. */
  lemma StopSloopOfRecord(argv: seq<string>, cp: ControlPath, host: Host, p: Pid)
    requires |argv| >= 2 && argv[1] == "stop" && cp.Valid()
    requires GetFullPath(cp, PidName).Ok?
    requires host.pidRecord == Some(PidFile.PidText(p))
    requires host.groupOf != -1 && host.refusedSignals == {}
    ensures RunSloop(argv, cp, host)
            == Run([InstallHandler(SIGALRM), InstallHandler(SIGCHLD),
                    QueryGroup(p), SignalGroup(-host.groupOf, SIGINT),
                    RemoveFile(CStr(GetFullPath(cp, PidName).value))],
                   Returned)
  {
    assert IsCommand(argv) && argv[1] != "start";
    PidFile.PidTextRoundTrip(p);
  }

  /** `start` followed by `stop` from the same executable: the record the
      first run writes names the forked daemon, and the second run reads that
      pid back, signals the daemon's process group (when `getpgid` finds it)
      and removes the very record the first run wrote. */
  lemma StartThenStopSignalsTheDaemon(starting: seq<string>, stopping: seq<string>, first: Host, second: Host)
    requires |starting| == 2 && ArgsAreStrings(starting) && starting[1] == "start"
    requires |stopping| == 2 && ArgsAreStrings(stopping) && stopping[0] == starting[0] && stopping[1] == "stop"
    requires RunServer(starting, first).exit == Returned
    requires first.fork.Forked?
    requires second.pidRecord == Some(PidFile.PidText(first.fork.child))
    requires second.groupOf != -1 && second.refusedSignals == {}
    ensures var written := RunServer(starting, first).trace;
            && |written| >= 1
            && written[|written| - 1].WriteFile?
            && RunServer(stopping, second)
               == Run([InstallHandler(SIGALRM), InstallHandler(SIGCHLD),
                       QueryGroup(first.fork.child), SignalGroup(-second.groupOf, SIGINT),
                       RemoveFile(written[|written| - 1].path)],
                      Returned)
  {
    assert BegPath(starting[0]).Ok?;
    var cp := BegPath(starting[0]).value;
    assert RunServer(starting, first) == RunSloop(starting, cp, first);
    StartReturnedShape(starting, cp, first);
    assert RunServer(stopping, second) == RunSloop(stopping, cp, second);
    StopSloopOfRecord(stopping, cp, second, first.fork.child);
  }

  /** `make_socket`'s bind loop ended either bound or dead, after some
      number of `bind` attempts with a 10-microsecond sleep between any two
      of them. */
  datatype BindOutcome =
    | Bound(attempts: nat, sleeps: nat)
    | BindDied(attempts: nat, sleeps: nat, exit: Exit)

  /** Retries `make_socket` allows after the first failed `bind`. */
  const BindRetries: nat := 10

  /** The bind loop of `make_socket`: attempt `bind`; on success stop; on
      failure die when the retry count is exhausted, otherwise count down,
      sleep and try again. `bindSucceeds(k)` is the answer to attempt `k`. */
  method BindWithRetry(bindSucceeds: nat -> bool, errText: string) returns (r: BindOutcome)
    ensures 1 <= r.attempts <= BindRetries + 1
    ensures r.sleeps == r.attempts - 1
    ensures forall k :: 0 <= k < r.attempts - 1 ==> !bindSucceeds(k)
    ensures r.Bound? <==> bindSucceeds(r.attempts - 1)
    ensures r.BindDied? ==> r.attempts == BindRetries + 1 && r.exit == DiePerror("bind", errText)
  {
    var count: nat := BindRetries;
    var attempt: nat := 0;
    while true
      invariant count <= BindRetries && attempt == BindRetries - count
      invariant forall k :: 0 <= k < attempt ==> !bindSucceeds(k)
      decreases count
    {
      if bindSucceeds(attempt) {
        return Bound(attempt + 1, attempt);
      }
      if count == 0 {
        return BindDied(attempt + 1, attempt, DiePerror("bind", errText));
      }
      count := count - 1;
      attempt := attempt + 1;
    }
  }

  /** The number of finished children the non-blocking `waitpid` loop
      collects: it stops at the first result that is not a positive pid;
      past the end of `waits` no child is left to report. */
  function Reaped(waits: seq<int>): (n: nat)
    ensures n <= |waits|
    ensures forall k :: 0 <= k < n ==> waits[k] > 0
    ensures n < |waits| ==> waits[n] <= 0
  {
    if waits == [] || waits[0] <= 0 then 0 else 1 + Reaped(waits[1..])
  }

  /** One pass of `do_connection` in the daemon: how many children were
      reaped, and the accepted channel handed to a forked worker, if any. */
  datatype Pass = Pass(reaped: nat, worker: Option<int>)

  /** `do_connection` in the daemon: reap the finished children, accept, and
      only when `accept` returned a channel fork a worker for it and close
      the daemon's copy of the channel; an `accept` error just ends the pass.
      `closed` is whether that `close` succeeded. */
  function DoConnection(waits: seq<int>, channel: int, fork: ForkOutcome, closed: bool): (r: Result<Pass>)
    ensures r.Died? <==> channel != -1 && (fork.ForkFailed? || !closed)
    ensures r.Died? && fork.ForkFailed? ==> r.exit == Die(Some("fork failed"))
    ensures r.Died? && fork.Forked? ==> r.exit == Die(Some("close failed"))
    ensures r.Ok? ==> r.value.reaped == Reaped(waits)
    ensures r.Ok? ==> (r.value.worker.Some? <==> channel != -1)
    ensures r.Ok? && r.value.worker.Some? ==> r.value.worker.value == channel
  {
    var reaped := Reaped(waits);
    if channel == -1 then Ok(Pass(reaped, None))
    else if fork.ForkFailed? then Died(Die(Some("fork failed")))
    else if !closed then Died(Die(Some("close failed")))
    else Ok(Pass(reaped, Some(channel)))
  }
}

=== FILE: util.dfy ===
/** The fatal-exit convention of the daemon (`die`) and its bounds-checked
    copy into a fixed character array (`safe_copy`), together with the
    small vocabulary every other module shares: an optional value, a result
    that is either a value or a fatal process exit, and the C-string view of
    a NUL-terminated character array. */
module Util {

  /** An optional value; stands for a nullable pointer or an absent file. */
  datatype Option<+T> = None | Some(value: T)

  /** How a process ends: its exit status and what it wrote to stderr on the
      way out. */
  datatype Exit = Exit(status: int, stderr: string)

  /** Either a value or the fatal exit that replaced it. */
  datatype Result<+T> = Ok(value: T) | Died(exit: Exit) {

    predicate IsFailure()
    {
      Died?
    }

    function PropagateFailure<U>(): Result<U>
      requires Died?
    {
      Died(exit)
    }

    function Extract(): T
      requires Ok?
    {
      value
    }
  }

  const NUL: char := '\0'

  /** `die`: print `msg` (when it is not null) and a newline to stderr, then
      exit with status 1. */
  function Die(msg: Option<string>): (e: Exit)
    ensures e.status == 1
    ensures msg.None? <==> e.stderr == []
    ensures msg.Some? ==> e.stderr == msg.value + "\n"
  {
    match msg
    case None => Exit(1, [])
    case Some(m) => Exit(1, m + "\n")
  }

  /** `perror(context)` followed by `die(0)`: the message is the context, a
      colon and the system's description of the error, and nothing more is
      printed before the status-1 exit. */
  function DiePerror(context: string, errText: string): (e: Exit)
    ensures e.status == Die(None).status
    ensures e.stderr == context + ": " + errText + "\n" + Die(None).stderr
  {
    Exit(1, context + ": " + errText + "\n")
  }

  predicate NoNul(s: string)
  {
    forall i :: 0 <= i < |s| ==> s[i] != NUL
  }

  /** The characters a C string function sees in array `a`: everything before
      the first NUL (or all of `a` when it holds none). */
  function CStr(a: seq<char>): (s: string)
    ensures s <= a
    ensures NoNul(s)
    ensures |s| < |a| ==> a[|s|] == NUL
  {
    if |a| == 0 || a[0] == NUL then [] else [a[0]] + CStr(a[1..])
  }

  /** A string followed by its terminator reads back as itself, whatever the
      array holds after the terminator. */
  lemma {:induction false} CStrOfTerminated(s: string, rest: seq<char>)
    requires NoNul(s)
    ensures CStr(s + [NUL] + rest) == s
  {
    if s != [] {
      assert (s + [NUL] + rest)[1..] == s[1..] + [NUL] + rest;
      CStrOfTerminated(s[1..], rest);
    }
  }

  /** The memory a C string occupies: its characters and the terminating NUL. */
  function Terminated(s: string): (a: seq<char>)
    requires NoNul(s)
    ensures |a| == |s| + 1 && a[..|s|] == s && a[|s|] == NUL
    ensures CStr(a) == s
  {
    CStrOfTerminated(s, []);
    s + [NUL]
  }

  const SafeCopyFailure := "safe_copy out of bounds"

  /** `safe_copy(dest, size, pos, src, len)` on an array `dest` of `size`
      characters: copy `src[0..len)` to `dest[pos..pos+len)` and put a NUL at
      `dest[pos+len]`, or die when that would leave the array. The source
      tests `size > len` before computing `size - len`, so the unsigned
      subtraction never wraps; with naturals the same order of tests is
      kept. `memcpy` reads `len` characters of `src`, which the caller must
      supply. */
  function SafeCopy(dest: seq<char>, pos: nat, src: seq<char>, len: nat): (r: Result<seq<char>>)
    requires len <= |src|
    ensures r.Ok? <==> pos + len + 1 <= |dest|
    ensures r.Ok? ==> |r.value| == |dest|
    ensures r.Ok? ==> r.value[pos..pos + len] == src[..len]
    ensures r.Ok? ==> r.value[pos + len] == NUL
    ensures r.Ok? ==> forall i :: 0 <= i < |dest| && (i < pos || pos + len < i) ==> r.value[i] == dest[i]
    ensures r.Died? ==> r.exit == Die(Some(SafeCopyFailure))
  {
    if |dest| > len && pos < |dest| - len then
      var copied := dest[..pos] + src[..len] + [NUL] + dest[pos + len + 1..];
      assert forall i :: pos + len < i < |dest| ==> copied[i] == dest[pos + len + 1..][i - (pos + len + 1)];
      Ok(copied)
    else
      Died(Die(Some(SafeCopyFailure)))
  }
}

=== FILE: world.dfy ===
/** The demonstration handler: a connection is served for at most ten
    request/response rounds. Each round discards the previous request, reads
    up to 8192 bytes, and, unless nothing arrived, composes a page into the
    output buffer and sends it behind a header whose `Content-Length` is the
    page's length. The buffer operations it uses are the ones of `Buffers`
    (the handler's file carries private copies of them with the same
    behaviour). The peer is a script of exchanges: what each read returns and
    what each body write returns; once the script is exhausted the peer has
    closed the connection. The page is the run of formatted writes
    `compose_page` performs, each given by what `vsnprintf` produced. */
module Session {
  import opened Util
  import opened Buffers
  import Numerals

  /** `max_request`: rounds allowed per connection. */
  const MaxRequest: nat := 10

  /** The most bytes `read_request` asks for. */
  const RequestSize: nat := 8192

  /** `read_request(fd, buf)`: forget the previous request (`len = 0`, the
      capacity is kept) and read a fresh one of at most 8192 bytes. */
  function ReadRequest(b: Buffer, rd: ReadOutcome, limit: nat): (r: Result<Buffer>)
    requires b.Valid() && rd.FitsIn(RequestSize)
    ensures r.Ok? <==> CanRead(b, limit)
    ensures r.Ok? ==> r.value.Valid() && r.value.content == rd.Got()
    ensures r.Ok? ==> r.value.Len() <= RequestSize && r.value.size >= b.size && r.value.size >= RequestSize
    ensures r.Died? ==> r.exit == Die(Some(OutOfMemory))
  {
    ReadInto(Buffer([], b.size), RequestSize, rd, limit)
  }

  /** The request read finds its 8192 bytes of space: the buffer already
      has that capacity, or `realloc` can grow it by that much. */
  predicate CanRead(b: Buffer, limit: nat)
  {
    b.size >= RequestSize || b.size + RequestSize <= limit
  }

  /** The header `send_html` prints with `dprintf` up to the length digits. */
  const LengthField := "HTTP/1.1 200 OK\n" + "Content-Type: text/html\n" + "Content-Length: "

  /** The whole header: the length field, the length, and the blank line. */
  function Header(length: nat): string
  {
    LengthField + Numerals.NatText(length) + "\n" + "\n"
  }

  /** A client reading the header finds the length field, then digits that
      read back as the length, then the blank line that ends it. */
  lemma HeaderAnnouncesLength(length: nat)
    ensures var h := Header(length);
            && |h| > |LengthField| + 2 && h[..|LengthField|] == LengthField
            && h[|h| - 2..] == "\n\n"
            && Numerals.Value(Numerals.DigitPrefix(h[|LengthField|..])) == length
  {
    var numeral := Numerals.NatText(length);
    NumeralAfterField(LengthField, numeral, []);
    Numerals.ValueOfNatText(length);
    assert Header(length) == LengthField + numeral + "\n\n" + [];
  }

  /** `send_html(buf, fd)`: the header announcing `buf->len`, then `bsend`. */
  function SendHtml(b: Buffer, written: int): (r: Result<(Buffer, string)>)
    requires b.Valid()
    ensures r.Ok? <==> written == b.Len()
    ensures r.Ok? ==> r.value.1 == Header(b.Len()) + b.content
    ensures r.Ok? ==> r.value.0.Valid() && r.value.0.Len() == 0 && r.value.0.size == b.size
    ensures r.Died? ==> r.exit == Die(Some(WriteFailure))
  {
    var header := Header(b.Len());
    match Send(b, written)
    case Ok((emptied, body)) => Ok((emptied, header + body))
    case Died(e) => Died(e)
  }

  /** Reading a field's digits: after `field`, the digit run is exactly
      `numeral`, the blank line follows it, and the rest is `body`. */
  lemma NumeralAfterField(field: string, numeral: string, body: string)
    requires Numerals.AllDigits(numeral)
    ensures var out := field + numeral + "\n\n" + body;
            var n := |field|;
            && out[..n] == field
            && Numerals.DigitPrefix(out[n..]) == numeral
            && out[n + |numeral|..n + |numeral| + 2] == "\n\n"
            && out[n + |numeral| + 2..] == body
  {
    var out := field + numeral + "\n\n" + body;
    var n := |field|;
    var tail := "\n\n" + body;
    assert out == field + (numeral + tail);
    assert out[n..] == numeral + tail;
    Numerals.DigitPrefixOfNumeral(numeral, tail);
    assert out[n + |numeral|..] == tail;
  }

  /** A client reading a response finds, after the length field, a run of
      digits, the blank line, and then exactly as many body bytes as those
      digits announce; the body is the buffer's content. */
  lemma ContentLengthMatchesBody(b: Buffer, written: int)
    requires b.Valid() && SendHtml(b, written).Ok?
    ensures var out := SendHtml(b, written).value.1;
            var n := |LengthField|;
            var digits := Numerals.DigitPrefix(out[n..]);
            && out[..n] == LengthField
            && n + |digits| + 2 <= |out|
            && out[n + |digits|..n + |digits| + 2] == "\n\n"
            && Numerals.Value(digits) == |out| - (n + |digits| + 2)
            && out[n + |digits| + 2..] == b.content
  {
    var numeral := Numerals.NatText(b.Len());
    assert SendHtml(b, written).value.1 == LengthField + numeral + "\n\n" + b.content;
    NumeralAfterField(LengthField, numeral, b.content);
    Numerals.ValueOfNatText(b.Len());
  }

  /** `write_response(buf, fd)`: compose the page into the output buffer
      with formatted writes, then send it. */
  function WriteResponse(out: Buffer, page: seq<Formatted>, written: int, limit: nat): (r: Result<(Buffer, string)>)
    requires out.Valid()
    requires AllValid(page)
    ensures r.Ok? ==> r.value.1 == Header(out.Len() + |Joined(page)|) + out.content + Joined(page)
    ensures r.Ok? ==> r.value.0.Valid() && r.value.0.Len() == 0 && r.value.0.size >= out.size
    ensures r.Ok? <==> AppendAll(out, page, limit).Ok? && written == out.Len() + |Joined(page)|
    ensures r.Ok? ==> r.value.0.size == AppendAll(out, page, limit).value.size
    ensures r.Died? ==> r.exit.status == 1
  {
    match AppendAll(out, page, limit)
    case Died(e) => Died(e)
    case Ok(composed) =>
      assert Header(composed.Len()) + composed.content == Header(composed.Len()) + out.content + Joined(page);
      SendHtml(composed, written)
  }

  /** What one round of the conversation does on the peer's side: the
      request the read returns and what the body write returns. */
  datatype Exchange = Exchange(request: ReadOutcome, written: int)

  predicate ScriptFits(script: seq<Exchange>)
  {
    forall i :: 0 <= i < |script| ==> script[i].request.FitsIn(RequestSize)
  }

  /** The read of round `i`; past the script the peer has hung up and the
      read returns 0. */
  function RequestAt(script: seq<Exchange>, i: nat): (rd: ReadOutcome)
    requires ScriptFits(script)
    ensures rd.FitsIn(RequestSize)
    ensures i >= |script| ==> rd.Got() == []
  {
    if i < |script| then script[i].request else ReadBytes([])
  }

  function WrittenAt(script: seq<Exchange>, i: nat): int
  {
    if i < |script| then script[i].written else 0
  }

  /** The response every answered round sends: the output buffer starts each
      round empty, so its body is the whole page. */
  function Response(page: seq<Formatted>): string
  {
    Header(|Joined(page)|) + Joined(page)
  }

  /** Since the output buffer is empty when a round starts, its response is
      the page behind its header. */
  lemma ResponseIsPage(output: Buffer, page: seq<Formatted>, written: int, limit: nat)
    requires output.Valid() && output.Len() == 0
    requires AllValid(page)
    requires WriteResponse(output, page, written, limit).Ok?
    ensures WriteResponse(output, page, written, limit).value.1 == Response(page)
  {
    assert output.content == [];
  }

  /** The conditions under which no round can fail: `realloc` grants the
      request buffer and every round's growth of the output buffer, every
      piece of the page fits the staging bound, and every scripted write of
      the body is complete. */
  predicate WellServed(script: seq<Exchange>, page: seq<Formatted>, limit: nat)
  {
    && limit >= RequestSize
    && limit >= MaxRequest * (|page| * StagingSize)
    && AllFitStaging(page)
    && (forall k :: 0 <= k < |script| ==> script[k].written == |Joined(page)|)
  }

  lemma MultiplyMonotone(a: nat, b: nat, c: nat)
    requires a <= b
    ensures a * c <= b * c
  {
  }

  /** How a session ends: with both buffers released after the loop, or
      with a fatal exit inside it. */
  datatype Ending = Closed(input: Buffer, output: Buffer) | Crashed(exit: Exit)

  /** The responses sent in full, one per answered round, in order (the
      connection carries their concatenation), and how the session ended. */
  datatype SessionRun = SessionRun(responses: seq<string>, ending: Ending)

  /** What one round of the loop did: the peer hung up (the read returned
      nothing), something was fatal, or the request was answered. */
  datatype Step =
    | Hangup(input: Buffer)
    | Fatal(exit: Exit)
    | Answered(input: Buffer, output: Buffer, response: string)

  /** The body of the `for` loop of `do_session`: read the request, and
      unless it is empty, write the response. */
  function Round(i: nat, input: Buffer, output: Buffer, script: seq<Exchange>, page: seq<Formatted>,
                 limit: nat): (s: Step)
    requires input.Valid() && output.Valid() && output.Len() == 0
    requires ScriptFits(script) && AllValid(page)
    ensures s.Hangup? <==> CanRead(input, limit) && RequestAt(script, i).Got() == []
    ensures s.Hangup? ==> s.input.Valid()
    ensures s.Answered? ==> CanRead(input, limit) && RequestAt(script, i).Got() != []
    ensures s.Answered? ==> s.response == Response(page)
    ensures s.Answered? ==> s.input.Valid() && s.output.Valid() && s.output.Len() == 0
    ensures s.Answered? <==>
              && CanRead(input, limit) && RequestAt(script, i).Got() != []
              && WriteResponse(output, page, WrittenAt(script, i), limit).Ok?
    ensures s.Answered? ==> s.input.size >= RequestSize
    ensures s.Answered? ==> s.output.size <= output.size + |page| * StagingSize
    ensures s.Fatal? && !CanRead(input, limit) ==> s.exit == Die(Some(OutOfMemory))
    ensures s.Fatal? ==> s.exit.status == 1
  {
    match ReadRequest(input, RequestAt(script, i), limit)
    case Died(e) => Fatal(e)
    case Ok(request) =>
      if request.Len() == 0 then Hangup(request)
      else
        match WriteResponse(output, page, WrittenAt(script, i), limit)
        case Died(e) => Fatal(e)
        case Ok(response) =>
          ResponseIsPage(output, page, WrittenAt(script, i), limit);
          Answered(request, response.0, response.1)
  }

  /** `do_session`: both buffers start zeroed; at most `max_request` rounds
      are served; the first empty read ends the session without a response;
      every response is the page behind its header; both buffers are
      released at the end. A peer that hangs up straight away gets nothing.
      Every answered round's body write was complete; a crash is the fault of
      the round after the last response: its reservation, its formatting, or
      a short write. */
  method DoSession(script: seq<Exchange>, page: seq<Formatted>, limit: nat) returns (r: SessionRun)
    requires ScriptFits(script) && AllValid(page)
    ensures |r.responses| <= MaxRequest
    ensures forall k :: 0 <= k < |r.responses| ==> r.responses[k] == Response(page)
    ensures forall k :: 0 <= k < |r.responses| ==> RequestAt(script, k).Got() != []
    ensures r.ending.Closed? && |r.responses| < MaxRequest ==> RequestAt(script, |r.responses|).Got() == []
    ensures r.ending.Closed? ==> r.ending.input == Empty && r.ending.output == Empty
    ensures RequestAt(script, 0).Got() == [] && limit >= RequestSize ==> r == SessionRun([], Closed(Empty, Empty))
    ensures r.ending.Crashed? ==> r.ending.exit.status == 1
    ensures WellServed(script, page, limit) ==> r.ending.Closed?
    ensures forall k :: 0 <= k < |r.responses| ==> WrittenAt(script, k) == |Joined(page)|
    ensures r.ending.Crashed? ==> |r.responses| < MaxRequest
    ensures r.ending.Crashed? && limit >= RequestSize ==> RequestAt(script, |r.responses|).Got() != []
    ensures && r.ending.Crashed? && limit >= RequestSize
            && limit >= MaxRequest * (|page| * StagingSize) && AllFitStaging(page)
            ==> WrittenAt(script, |r.responses|) != |Joined(page)|
  {
    var input, output := Empty, Empty;
    var responses: seq<string> := [];
    var i := 0;
    var growth := |page| * StagingSize;
    while i < MaxRequest
      invariant i <= MaxRequest && |responses| == i
      invariant input.Valid() && output.Valid() && output.Len() == 0
      invariant i == 0 ==> input == Empty
      invariant i > 0 ==> input.size >= RequestSize
      invariant output.size <= i * growth
      invariant forall k :: 0 <= k < i ==> responses[k] == Response(page)
      invariant forall k :: 0 <= k < i ==> RequestAt(script, k).Got() != []
      invariant forall k :: 0 <= k < i ==> WrittenAt(script, k) == |Joined(page)|
    {
      var step := Round(i, input, output, script, page, limit);
      if step.Fatal? {
        if limit >= RequestSize {
          assert CanRead(input, limit);
          if limit >= MaxRequest * growth && AllFitStaging(page) {
            assert (i + 1) * growth <= MaxRequest * growth by {
              MultiplyMonotone(i + 1, MaxRequest, growth);
            }
            assert AppendAll(output, page, limit).Ok?;
          }
        }
        return SessionRun(responses, Crashed(step.exit));
      }
      if step.Hangup? {
        input := step.input;
        break;
      }
      assert (i + 1) * growth == i * growth + growth;
      input, output, responses := step.input, step.output, responses + [step.response];
      i := i + 1;
    }
    r := SessionRun(responses, Closed(Clear(input), Clear(output)));
  }
}
